=== FILE: README.md ===
# Card query engine of speki, in Dafny

speki is a terminal flashcard program with spaced repetition, a prerequisite
graph between cards and incremental reading. This project models the part of
its store accessor (`src/utils/sql/fetch.rs`) that decides which cards and
reading items are selected:

- `CardFilter`, the predicates a card query can carry, with the text each one
  contributes to the query (`Filters.Render`) and the rows it admits
  (`Filters.Holds`) over a joined card row;
- `CardQuery`, the builder that collects filters and an optional cap, the query
  text `make_query` renders, and the result of running a query over an
  in-memory card table;
- the integer code stored for a card's lifecycle stage (0 pending,
  1 unfinished, 2 finished), as decoded by `row2card` and `get_cardtype`;
- the two views of the prerequisite edge list (`get_dependents`,
  `get_dependencies`) and `fill_dependencies`, which attaches both to a card;
- the due rule for incremental-reading items (`load_active_inc`) and the item
  title (`load_inc_title`).

The SQLite store is replaced by sequences of rows: `Cards.StoredCard` is one
row of `cards` joined with `finished_cards`, `unfinished_cards` and
`pending_cards`. A column of an extension table is `None` (SQL NULL) when the
card has no row there, and every comparison against it fails, as in SQL.
`Dependencies.DepPair` is one row of `dependencies`, and `IncRead.IncItem` is one
row of `incread`. The clock reading is a parameter `now` (seconds). Where the
program unwraps a failed store access or panics, the model returns a
`Results.Result` failure: `NotFound` for a missing id, `InvariantViolation` for
an unknown cardtype code, and `MalformedQuery` for a query whose text the
store would refuse to prepare.

Modules: `Text` (number rendering, joining, `pop`, substring), `Results`,
`Cards`, `Filters`, `Query`, `Dependencies`, `IncRead`, one file each.

Points where the model follows the code closely:

- The unfinished-card due filter multiplies the postponement by 84600, while
  the reading-item rule uses 86400. Both constants are kept as written.
  `IncRead.UnfinishedWindowShorter` shows the consequence: a card postponed one
  day comes due after 84600 seconds.
- `MinSkipDaysPassed(d)` renders `skiptime > now - d*86400`, so it admits cards
  skipped *fewer* than `d` days ago. `MaxSkipDaysPassed(d)` admits cards skipped
  *more* than `d` days ago. `Filters.SkipDaysWindows` states this.
- `load_active_inc` does not test `parent`, so extracts resurface as well as
  top-level sources. The model follows the code.
- An empty topic list renders as a lone `)`. The four `pop`s remove the
  opening parenthesis, then do nothing on the empty string. Running such a
  query is a `MalformedQuery` failure.
- A cardtype code outside 0..2 panics in the program. In the model it is an
  `InvariantViolation`.

## Model

| member | source | states |
|---|---|---|
| Cards.Encode | src/utils/sql/fetch.rs:37-53 | the three stages are written with the codes 0, 1 and 2, one code per stage and each code for exactly one stage |
| Cards.Decode | src/utils/sql/fetch.rs:318-323 | decoding succeeds exactly for the codes 0, 1, 2, and a decoded stage encodes back to the stored code |
| Cards.DecodeEncode | src/utils/sql/fetch.rs:37-41 | decoding the code a stage is written with gives that stage back |
| Cards.EncodeInjective | src/utils/sql/fetch.rs:37-41 | the three stages are written with three different codes |
| Cards.RowToCard | src/utils/sql/fetch.rs:317-354 | a row with an unknown code fails with that code; otherwise the base columns are copied, the stage matches the code, and both dependency lists are empty |
| Cards.Lookup | src/utils/sql/fetch.rs:608-616 | no row is found exactly when no row has the id; a found row is a table row with that id |
| Cards.GetCardtype | src/utils/sql/fetch.rs:608-622 | `NotFound` exactly when no row has the id; a returned stage is the decoded code of a row with that id; an `InvariantViolation` comes from such a row with a code outside 0..2; no other failure occurs, and a present id whose rows all hold a valid code always succeeds |
| Filters.Render | src/utils/sql/fetch.rs:31-99 | every condition is nonempty; `cardtype(T)` renders as `cardtype = ` followed by digits that decode back to `T`; a nonempty topic list renders as the parenthesised ` OR ` of its terms, an empty one as `)` |
| Filters.Holds | src/utils/sql/fetch.rs:35-94 | a card passes a filter on a finished- or unfinished-card column only when it has that column (NULL passes no comparison); a cardtype filter passes only cards whose stored code decodes to that stage; no card passes an empty topic list |
| Filters.WellFormed | src/utils/sql/fetch.rs:84-95 | a filter is rejected only when it is an empty topic list; such a filter renders as `)` and admits no card, which is why the statement fails to prepare at line 214 |
| Filters.SourceRenderInjective | src/utils/sql/fetch.rs:77 | two different source ids never render to the same `source = ` condition |
| Filters.TopicsTextShape | src/utils/sql/fetch.rs:84-95 | for a nonempty id list the text is `(topic = t1 OR ... OR topic = tn)`: the four pops remove exactly the final ` OR ` |
| Filters.TopicsRenderEmpty | src/utils/sql/fetch.rs:84-95 | an empty id list renders as `)`, which is not a valid condition |
| Filters.TopicsSemantics | src/utils/sql/fetch.rs:84-88 | a topic filter admits a card exactly when its topic is one of the ids; `[1, 3]` admits topics 1 and 3 and nothing else |
| Filters.ShorthandAgreesWithCardtype | src/utils/sql/fetch.rs:37-53 | `pending/unfinished/finished(true)` render and select exactly as `cardtype(T)`; with `false` they render `!=` and select the complement |
| Filters.CardtypeTextRoundTrip | src/utils/sql/fetch.rs:37-41 | the text of `cardtype(T)` is `cardtype = ` followed by digits that decode back to `T` |
| Filters.StrengthRangeInclusive | src/utils/sql/fetch.rs:82 | the strength range admits exactly the strengths between its ends, both ends included |
| Filters.StrictBounds | src/utils/sql/fetch.rs:78-81 | minimum and maximum stability and position bounds are strict: a value on the bound passes neither, no value passes both, and any other stability or position passes one |
| Filters.MinMaxDirection | src/utils/sql/fetch.rs:78-82 | a minimum stability or position bound is written `>` and admits exactly the present values above it; a maximum is written `<` and admits exactly the present values below it; the strength range is written `strength BETWEEN lo and hi` |
| Filters.NullColumnsRejected | src/utils/sql/fetch.rs:80-82 | a card without a finished-card row passes no stability or strength filter |
| Filters.ContainsSemantics | src/utils/sql/fetch.rs:83 | the text filter admits a card exactly when the text occurs in its question or its answer; the empty text admits every card |
| Filters.SkipDaysWindows | src/utils/sql/fetch.rs:61-76 | `MinSkipDaysPassed(d)` admits cards skipped less than `d` days ago, `MaxSkipDaysPassed(d)` those skipped more than `d` days ago, never both |
| Filters.DueUnfinishedScenario | src/utils/sql/fetch.rs:54-60 | a card skipped two days ago is due with a one-day postponement and not due with a three-day one |
| Query.AllHoldIff | src/utils/sql/fetch.rs:120-130 | a row passes the filter list exactly when it satisfies every filter in it |
| Query.OrderIrrelevant | src/utils/sql/fetch.rs:120-130 | two queries with the same filters, in any order and with any repeats, admit the same rows |
| Query.EmptyAdmitsAll | src/utils/sql/fetch.rs:120 | a query without filters admits every row |
| Query.Push | src/utils/sql/fetch.rs:137-140 | adding a filter appends it at the end, keeps the cap, and narrows the admitted rows to those also satisfying the new filter |
| Query.Suspended | src/utils/sql/fetch.rs:137-140 | `suspended(v)` appends `Suspended(v)` and keeps the cap |
| Query.Resolved | src/utils/sql/fetch.rs:141-144 | `resolved(v)` appends `Resolved(v)` and keeps the cap |
| Query.Finished | src/utils/sql/fetch.rs:145-148 | `finished(v)` appends `Finished(v)` and keeps the cap |
| Query.Unfinished | src/utils/sql/fetch.rs:149-152 | `unfinished(v)` appends `Unfinished(v)` and keeps the cap |
| Query.Pending | src/utils/sql/fetch.rs:153-156 | `pending(v)` appends `Pending(v)` and keeps the cap |
| Query.Strength | src/utils/sql/fetch.rs:157-160 | `strength((lo, hi))` appends `StrengthRange(lo, hi)` and keeps the cap |
| Query.MinimumStability | src/utils/sql/fetch.rs:161-164 | `minimum_stability(v)` appends `Minstability(v)` and keeps the cap |
| Query.MaxStability | src/utils/sql/fetch.rs:165-168 | `max_stability(v)` appends `Maxstability(v)` and keeps the cap |
| Query.Contains | src/utils/sql/fetch.rs:169-172 | `contains(s)` appends `Contains(s)` and keeps the cap |
| Query.Topics | src/utils/sql/fetch.rs:173-176 | `topics(ids)` appends `Topics(ids)` and keeps the cap |
| Query.MinimumPosition | src/utils/sql/fetch.rs:177-180 | `minimum_position(v)` appends `MinPosition(v)` and keeps the cap |
| Query.MaxPosition | src/utils/sql/fetch.rs:181-184 | `max_position(v)` appends `MaxPosition(v)` and keeps the cap |
| Query.MinimumDaysSinceSkip | src/utils/sql/fetch.rs:185-188 | `minimum_days_since_skip(d)` appends `MinSkipDaysPassed(d)` and keeps the cap |
| Query.MaxDaysSinceSkip | src/utils/sql/fetch.rs:189-192 | `max_days_since_skip(d)` appends `MaxSkipDaysPassed(d)` and keeps the cap |
| Query.Source | src/utils/sql/fetch.rs:193-196 | `source(v)` appends `Source(v)` and keeps the cap |
| Query.UnfinishedDue | src/utils/sql/fetch.rs:197-200 | `unfinished_due()` appends `DueUnfinished` and keeps the cap |
| Query.Cardtype | src/utils/sql/fetch.rs:201-204 | `cardtype(T)` appends `Cardtype(T)` and keeps the cap |
| Query.Limit | src/utils/sql/fetch.rs:205-208 | `limit(n)` sets the cap to `n`, keeps the filters, and leaves the admitted rows unchanged |
| Query.ChainResult | src/utils/sql/fetch.rs:137-208 | a chain of builder calls keeps every filter call in call order, and its cap is that of the last `limit` call |
| Text.PopTerminated | src/utils/sql/fetch.rs:126-129 | removing `k` characters from a head followed by parts each terminated by a separator leaves the parts joined by the separator plus the separator's first characters; for ` and ` and four pops, one trailing space |
| Query.WhereClause | src/utils/sql/fetch.rs:120-130 | no condition without filters; otherwise `WHERE ` then the rendered filters joined by ` and `, then one space |
| Query.MakeQuery | src/utils/sql/fetch.rs:108-135 | the query text is the fixed join prefix, then the condition, then `LIMIT n` exactly when the cap is `n` |
| Query.Matching | src/utils/sql/fetch.rs:120-130 | a row is selected exactly when it is a table row that satisfies every filter, and there are no more selected rows than table rows |
| Query.Execute | src/utils/sql/fetch.rs:209-223 | a query fails exactly when one of its filters renders as an invalid condition; otherwise the result is the matching rows, cut to the cap |
| Query.FetchCardIds | src/utils/sql/fetch.rs:209-223 | the ids are those of the capped matching rows, one per row and in the same order; every returned id belongs to a row satisfying every filter; there are at most `n` ids under cap `n`; without a cap every such row's id is returned |
| Query.FetchCardItems | src/utils/sql/fetch.rs:224-241 | one id-and-question entry per selected row, in the same order |
| Dependencies.GetDependents | src/utils/sql/fetch.rs:393-404 | `c` is listed exactly when the edge list holds `c -> d` |
| Dependencies.GetDependencies | src/utils/sql/fetch.rs:406-417 | `d` is listed exactly when the edge list holds `c -> d` |
| Dependencies.ViewsAreInverse | src/utils/sql/fetch.rs:393-417 | `c` is among the dependents of `d` exactly when `d` is among the dependencies of `c` |
| Dependencies.DependentsCount | src/utils/sql/fetch.rs:393-404 | each dependent appears exactly as many times as there are edges from it into the card, so repeated edges are listed repeatedly, and the list is as long as the number of edges into the card |
| Dependencies.DependenciesCount | src/utils/sql/fetch.rs:406-417 | each dependency appears exactly as many times as there are edges from the card to it, so repeated edges are listed repeatedly, and the list is as long as the number of edges out of the card |
| Dependencies.DependentOccurrences | src/utils/sql/fetch.rs:393-404 | a card `c` appears among the dependents of `d` exactly as many times as the edge `c -> d` occurs in the edge list |
| Dependencies.DependencyOccurrences | src/utils/sql/fetch.rs:406-417 | a card `d` appears among the dependencies of `c` exactly as many times as the edge `c -> d` occurs in the edge list |
| Dependencies.FillDependencies | src/utils/sql/fetch.rs:262-266 | the filled card lists exactly its dependents and dependencies from the edge list, and no other field changes |
| Dependencies.FilledCardsAgree | src/utils/sql/fetch.rs:262-266 | two cards filled from one edge list agree: one lists the other as dependent exactly when the other lists the first as dependency |
| IncRead.IncDue | src/utils/sql/fetch.rs:511 | a due item is active, and one with a nonnegative postponement was skipped strictly before now; an active item with no postponement is due as soon as a second has passed |
| IncRead.LoadActiveInc | src/utils/sql/fetch.rs:502-520 | an id is returned exactly when some item with that id is active and was skipped strictly more than its postponement in days ago |
| IncRead.IncDueBoundary | src/utils/sql/fetch.rs:511 | inactive items never resurface; an item skipped exactly its postponement ago is not due, one second later it is |
| IncRead.UnfinishedWindowShorter | src/utils/sql/fetch.rs:54-60 | with the same skip values the unfinished-card rule (84600) admits everything the item rule (86400) admits, and a one-day card is due after 85000 seconds while the item is not |
| IncRead.IncTitle | src/utils/sql/fetch.rs:536-541 | the title is the text cut to `titlelen` characters when at least five remain, and "Empty Source" otherwise |
| IncRead.ShortTitleIsEmptySource | src/utils/sql/fetch.rs:536-541 | a title length below five always gives "Empty Source" |
| IncRead.FindItem | src/utils/sql/fetch.rs:523-529 | no item is found exactly when no item has the id; a found item is one of the items and has that id |
| IncRead.LoadIncTitle | src/utils/sql/fetch.rs:523-542 | `NotFound` exactly when no item has the id; otherwise the title of that item's text |
| Text.ParseNatToString | src/utils/sql/fetch.rs:77-81 | the decimal text of an id reads back as the same id, so distinct ids render differently |

## Left out

- The SQLite connection, its lock, `prepare`, `query_map` and `query_row`:
  the store is an in-memory sequence of rows, and store failures other than
  the ones listed above are not modelled.
- `SystemTime::now()`: the clock reading is the parameter `now`.
- Float arithmetic: strength bounds, skip days, stability and the clock are
  integers, so f32 rounding of `now - d*86400` and of large timestamps is not
  modelled. Rust prints an integral f32 below 2^24 without a fractional
  part, which is what the integer rendering gives; above that, `Display`
  prints the shortest digits that read back as the same f32 (1696000128
  prints as `1696000100`), which the model does not reproduce.
- Filters.ContainsSemantics: `Contains` is a case-sensitive substring test. SQLite `LIKE`
  also folds ASCII case and treats `%` and `_` in the text as wildcards, and a
  quote in the text breaks the query; none of that is modelled.
- The order of rows in a result: SQLite gives no order without `ORDER BY`, so
  the model takes table order, and the cap keeps the first rows in that order.
- The `position` column does not appear in the card columns `row2card` reads.
  The model gives the joined row an optional `position` column and does not
  model a store whose schema lacks it.
- Media paths (`frontaudio`, `backaudio`, `frontimage`, `backimage`): not part
  of `Cards.Card`, since the model never looks at them.
- IncRead.IncTitle: counts characters, not UTF-8 bytes. `String::truncate`
  panics when the cut falls inside a multi-byte character, and `len` counts
  bytes; the model agrees with the program on ASCII text only.
- `titlelen` is a `u16` and item ids are `u32` in the program; the model uses
  unbounded naturals. `load_active_inc` casts the clock to `u32`, which wraps
  in 2106; not modelled.
- `fetch_card`, `load_cards`, `load_card_matches`, `get_topics`,
  `get_history`, `get_incread`, `load_inc_items`, `load_extracts`, the single
  column getters and `fetch_media`: they are store reads or widget
  construction outside the modelled core.
- The review screen (`src/ui/review.rs`): terminal layout and drawing.

=== FILE: cards.dfy ===
/** Cards as the store holds them and as the program uses them, and the
    integer code that stores a card's lifecycle stage. */
module Cards {
  import opened Results

  /** Lifecycle stage of a card; exactly one holds at any time. */
  datatype CardType = Pending | Unfinished | Finished

  /** The integer stored in the `cardtype` column for each stage. */
  function Encode(t: CardType): (code: nat)
    ensures code <= 2
    ensures code == 0 <==> t.Pending?
    ensures code == 1 <==> t.Unfinished?
    ensures code == 2 <==> t.Finished?
  {
    match t
    case Pending => 0
    case Unfinished => 1
    case Finished => 2
  }

  /** Reads a stored `cardtype` code; a code outside 0, 1, 2 is an error. */
  function Decode(code: int): (r: Option<CardType>)
    ensures r.Some? <==> 0 <= code <= 2
    ensures r.Some? ==> Encode(r.value) == code
  {
    if code == 0 then Some(Pending)
    else if code == 1 then Some(Unfinished)
    else if code == 2 then Some(Finished)
    else None
  }

  /** Decoding undoes encoding for every stage. */
  lemma DecodeEncode(t: CardType)
    ensures Decode(Encode(t)) == Some(t)
  {
  }

  /** Distinct stages never share a code. */
  lemma EncodeInjective(a: CardType, b: CardType)
    requires Encode(a) == Encode(b)
    ensures a == b
  {
  }

  /** One row of `cards` joined with its extension tables. A column of
      `finished_cards` or `unfinished_cards` is `None` (SQL NULL) for a card
      that has no row there. Real-valued columns are modelled as integers. */
  datatype StoredCard = StoredCard(
    id: nat,
    question: string,
    answer: string,
    cardtype: int,
    suspended: bool,
    resolved: bool,
    topic: nat,
    source: nat,
    position: Option<int>,
    stability: Option<int>,
    strength: Option<int>,
    skiptime: Option<int>,
    skipduration: Option<int>)

  /** A card as the program uses it. Media handles are not modelled. */
  datatype Card = Card(
    id: nat,
    question: string,
    answer: string,
    cardtype: CardType,
    suspended: bool,
    resolved: bool,
    dependents: seq<nat>,
    dependencies: seq<nat>,
    topic: nat,
    source: nat)

  /** Builds a card from a stored row: the base columns are copied, the
      dependency views start out empty, and an unknown code is an error. */
  function RowToCard(row: StoredCard): (r: Result<Card>)
    ensures r.Failure? <==> Decode(row.cardtype).None?
    ensures r.Failure? ==> r.error == InvariantViolation(row.cardtype)
    ensures r.Success? ==>
      && r.value.id == row.id
      && r.value.question == row.question
      && r.value.answer == row.answer
      && Encode(r.value.cardtype) == row.cardtype
      && r.value.suspended == row.suspended
      && r.value.resolved == row.resolved
      && r.value.topic == row.topic
      && r.value.source == row.source
      && r.value.dependents == []
      && r.value.dependencies == []
  {
    match Decode(row.cardtype)
    case None => Failure(InvariantViolation(row.cardtype))
    case Some(t) =>
      Success(Card(row.id, row.question, row.answer, t, row.suspended,
                   row.resolved, [], [], row.topic, row.source))
  }

  /** The first row of `table` with the given id, if any. */
  function Lookup(table: seq<StoredCard>, id: nat): (r: Option<StoredCard>)
    ensures r.None? <==> forall i :: 0 <= i < |table| ==> table[i].id != id
    ensures r.Some? ==> r.value in table && r.value.id == id
  {
    if |table| == 0 then None
    else if table[0].id == id then Some(table[0])
    else Lookup(table[1..], id)
  }

  /** The stage of the card with the given id: `NotFound` when no row has
      that id, `InvariantViolation` when its stored code is unknown. */
  function GetCardtype(table: seq<StoredCard>, id: nat): (r: Result<CardType>)
    ensures r.Failure? && r.error.NotFound? <==>
      forall i :: 0 <= i < |table| ==> table[i].id != id
    ensures r.Success? ==>
      exists i :: 0 <= i < |table| && table[i].id == id && table[i].cardtype == Encode(r.value)
    ensures r.Failure? && r.error.InvariantViolation? ==>
      exists i :: 0 <= i < |table| && table[i].id == id && !(0 <= table[i].cardtype <= 2)
    ensures ((exists i :: 0 <= i < |table| && table[i].id == id) &&
             (forall i :: 0 <= i < |table| && table[i].id == id ==> 0 <= table[i].cardtype <= 2))
            ==> r.Success?
    ensures r.Failure? ==> r.error == NotFound(id) || r.error.InvariantViolation?
  {
    match Lookup(table, id)
    case None => Failure(NotFound(id))
    case Some(row) =>
      match Decode(row.cardtype)
      case None => Failure(InvariantViolation(row.cardtype))
      case Some(t) => Success(t)
  }
}

=== FILE: dependencies.dfy ===
/** The prerequisite edge list and the two views a card takes of it: the
    cards that depend on it, and the cards it depends on. */
module Dependencies {
  import opened Cards

  /** One row of the `dependencies` table: `dependent` requires `dependency`. */
  datatype DepPair = DepPair(dependent: nat, dependency: nat)

  /** The dependents of `dependency`, one per edge into it, in edge order. */
  function GetDependents(edges: seq<DepPair>, dependency: nat): (r: seq<nat>)
    ensures |r| <= |edges|
    ensures forall c :: c in r <==> DepPair(c, dependency) in edges
  {
    if |edges| == 0 then []
    else
      var rest := GetDependents(edges[1..], dependency);
      assert forall e :: e in edges <==> e == edges[0] || e in edges[1..];
      if edges[0].dependency == dependency then [edges[0].dependent] + rest else rest
  }

  /** The dependencies of `dependent`, one per edge out of it, in edge order. */
  function GetDependencies(edges: seq<DepPair>, dependent: nat): (r: seq<nat>)
    ensures |r| <= |edges|
    ensures forall d :: d in r <==> DepPair(dependent, d) in edges
  {
    if |edges| == 0 then []
    else
      var rest := GetDependencies(edges[1..], dependent);
      assert forall e :: e in edges <==> e == edges[0] || e in edges[1..];
      if edges[0].dependent == dependent then [edges[0].dependency] + rest else rest
  }

  /** The two views are inverse to each other over the same edge list. */
  lemma ViewsAreInverse(edges: seq<DepPair>, c: nat, d: nat)
    ensures c in GetDependents(edges, d) <==> d in GetDependencies(edges, c)
  {
  }

  /** Number of edges into `dependency`. */
  function CountInto(edges: seq<DepPair>, dependency: nat): nat {
    if |edges| == 0 then 0
    else (if edges[0].dependency == dependency then 1 else 0) + CountInto(edges[1..], dependency)
  }

  /** A dependent is listed once per edge, so a repeated edge is reported
      twice; the list is as long as the number of edges into the card. */
  lemma {:induction false} DependentsCount(edges: seq<DepPair>, dependency: nat)
    ensures |GetDependents(edges, dependency)| == CountInto(edges, dependency)
    ensures forall c :: multiset(GetDependents(edges, dependency))[c] == multiset(edges)[DepPair(c, dependency)]
  {
    if |edges| > 0 {
      DependentsCount(edges[1..], dependency);
    }
    forall c ensures multiset(GetDependents(edges, dependency))[c] == multiset(edges)[DepPair(c, dependency)] {
      DependentOccurrences(edges, dependency, c);
    }
  }

  /** The number of times `c` is listed is the number of `c -> dependency`
      edges. */
  lemma {:induction false} DependentOccurrences(edges: seq<DepPair>, dependency: nat, c: nat)
    ensures multiset(GetDependents(edges, dependency))[c] == multiset(edges)[DepPair(c, dependency)]
  {
    if |edges| > 0 {
      DependentOccurrences(edges[1..], dependency, c);
      var rest: seq<nat> := GetDependents(edges[1..], dependency);
      assert edges == [edges[0]] + edges[1..];
      assert multiset(edges)[DepPair(c, dependency)] == multiset([edges[0]])[DepPair(c, dependency)] + multiset(edges[1..])[DepPair(c, dependency)];
      if edges[0].dependency == dependency {
        var whole: seq<nat> := [edges[0].dependent] + rest;
        assert GetDependents(edges, dependency) == whole;
        assert multiset(whole)[c] == multiset([edges[0].dependent])[c] + multiset(rest)[c];
      } else {
        assert GetDependents(edges, dependency) == rest;
        assert edges[0] != DepPair(c, dependency);
      }
    }
  }

  /** Number of edges out of `dependent`. */
  function CountOutOf(edges: seq<DepPair>, dependent: nat): nat {
    if |edges| == 0 then 0
    else (if edges[0].dependent == dependent then 1 else 0) + CountOutOf(edges[1..], dependent)
  }

  /** Likewise a dependency is listed once per edge out of the card. */
  lemma {:induction false} DependenciesCount(edges: seq<DepPair>, dependent: nat)
    ensures |GetDependencies(edges, dependent)| == CountOutOf(edges, dependent)
    ensures forall d :: multiset(GetDependencies(edges, dependent))[d] == multiset(edges)[DepPair(dependent, d)]
  {
    if |edges| > 0 {
      DependenciesCount(edges[1..], dependent);
    }
    forall d ensures multiset(GetDependencies(edges, dependent))[d] == multiset(edges)[DepPair(dependent, d)] {
      DependencyOccurrences(edges, dependent, d);
    }
  }

  /** The number of times `d` is listed is the number of `dependent -> d`
      edges. */
  lemma {:induction false} DependencyOccurrences(edges: seq<DepPair>, dependent: nat, d: nat)
    ensures multiset(GetDependencies(edges, dependent))[d] == multiset(edges)[DepPair(dependent, d)]
  {
    if |edges| > 0 {
      DependencyOccurrences(edges[1..], dependent, d);
      var rest: seq<nat> := GetDependencies(edges[1..], dependent);
      assert edges == [edges[0]] + edges[1..];
      assert multiset(edges)[DepPair(dependent, d)] == multiset([edges[0]])[DepPair(dependent, d)] + multiset(edges[1..])[DepPair(dependent, d)];
      if edges[0].dependent == dependent {
        var whole: seq<nat> := [edges[0].dependency] + rest;
        assert GetDependencies(edges, dependent) == whole;
        assert multiset(whole)[d] == multiset([edges[0].dependency])[d] + multiset(rest)[d];
      } else {
        assert GetDependencies(edges, dependent) == rest;
        assert edges[0] != DepPair(dependent, d);
      }
    }
  }

  /** Attaches both views to a card and changes nothing else about it. */
  function FillDependencies(edges: seq<DepPair>, card: Card): (r: Card)
    ensures forall c :: c in r.dependents <==> DepPair(c, card.id) in edges
    ensures forall d :: d in r.dependencies <==> DepPair(card.id, d) in edges
    ensures r.(dependents := card.dependents, dependencies := card.dependencies) == card
  {
    card.(dependents := GetDependents(edges, card.id),
          dependencies := GetDependencies(edges, card.id))
  }

  /** Two cards filled from one edge list see each other consistently: one
      lists the other as a dependent exactly when the other lists it as a
      dependency. */
  lemma FilledCardsAgree(edges: seq<DepPair>, a: Card, b: Card)
    ensures b.id in FillDependencies(edges, a).dependents
        <==> a.id in FillDependencies(edges, b).dependencies
  {
  }
}

=== FILE: filters.dfy ===
/** One predicate of a card query: how it is written into the query text,
    and which joined card rows it admits. */
module Filters {
  import opened Text
  import opened Results
  import opened Cards

  /** Seconds in a day, as used by the skip-day filters. */
  const SecondsPerDay: int := 86400
  /** The day length the due-unfinished filter multiplies by, as written. */
  const UnfinishedDueDay: int := 84600

  /** The predicates a query can carry. Real-valued arguments (strength
      bounds, skip days) are modelled as integers. */
  datatype CardFilter =
    | Suspended(flag: bool)
    | Resolved(flag: bool)
    | Finished(flag: bool)
    | Unfinished(flag: bool)
    | Pending(flag: bool)
    | Cardtype(cardtype: CardType)
    | StrengthRange(lo: int, hi: int)
    | Minstability(bound: nat)
    | Maxstability(bound: nat)
    | Contains(text: string)
    | Topics(ids: seq<nat>)
    | MinPosition(bound: nat)
    | MaxPosition(bound: nat)
    | MinSkipDaysPassed(days: int)
    | MaxSkipDaysPassed(days: int)
    | Source(source: nat)
    | DueUnfinished

  function BoolText(b: bool): string {
    if b then "true" else "false"
  }

  /** Text of a stage test: `=` when `positive`, `!=` otherwise. */
  function CardtypeText(t: CardType, positive: bool): string {
    (if positive then "cardtype = " else "cardtype != ") + NatToString(Encode(t))
  }

  function TopicTerm(id: nat): string {
    "topic = " + NatToString(id)
  }

  function TopicTerms(ids: seq<nat>): (r: seq<string>)
    ensures |r| == |ids|
    ensures forall i :: 0 <= i < |ids| ==> r[i] == TopicTerm(ids[i])
  {
    if |ids| == 0 then [] else [TopicTerm(ids[0])] + TopicTerms(ids[1..])
  }

  /** The topic list as the renderer builds it: an opening parenthesis, one
      `topic = id OR ` per id, four `pop`s, and a closing parenthesis. */
  function TopicsText(ids: seq<nat>): string {
    PopN("(" + Terminated(" OR ", TopicTerms(ids)), 4) + ")"
  }

  /** The query text of one filter. `now` is the clock reading, in seconds,
      at the moment the filter is written out. */
  function Render(f: CardFilter, now: int): (r: string)
    ensures |r| > 0
    ensures f.Cardtype? ==>
      && |r| > 11 && r[..11] == "cardtype = "
      && (forall i :: 11 <= i < |r| ==> IsDigit(r[i]))
      && Decode(ParseNat(r[11..])) == Some(f.cardtype)
    ensures f.Topics? && |f.ids| > 0 ==> r == "(" + Join(" OR ", TopicTerms(f.ids)) + ")"
    ensures f.Topics? && |f.ids| == 0 ==> r == ")"
  {
    match f
    case Suspended(v) => "suspended = " + BoolText(v)
    case Resolved(v) => "resolved = " + BoolText(v)
    case Cardtype(t) =>
      ParseNatToString(Encode(t));
      assert CardtypeText(t, true)[11..] == NatToString(Encode(t));
      CardtypeText(t, true)
    case Pending(v) => CardtypeText(CardType.Pending, v)
    case Unfinished(v) => CardtypeText(CardType.Unfinished, v)
    case Finished(v) => CardtypeText(CardType.Finished, v)
    case DueUnfinished =>
      IntToString(now) + " - skiptime > (skipduration * " + NatToString(UnfinishedDueDay) + ")"
    case MaxSkipDaysPassed(d) => "skiptime < " + IntToString(now - d * SecondsPerDay)
    case MinSkipDaysPassed(d) => "skiptime > " + IntToString(now - d * SecondsPerDay)
    case Source(v) => "source = " + NatToString(v)
    case MaxPosition(v) => "position < " + NatToString(v)
    case MinPosition(v) => "position > " + NatToString(v)
    case Minstability(v) => "stability > " + NatToString(v)
    case Maxstability(v) => "stability < " + NatToString(v)
    case StrengthRange(lo, hi) => "strength BETWEEN " + IntToString(lo) + " and " + IntToString(hi)
    case Contains(s) => "(question LIKE '%" + s + "%' or answer LIKE '%" + s + "%')"
    case Topics(ids) =>
      if |ids| > 0 then TopicsTextShape(ids); TopicsText(ids)
      else assert PopN("(", 4) == ""; TopicsText(ids)
  }

  /** Whether the filter's text is a valid condition. An empty topic list
      renders as a lone `)`, which the store refuses to prepare. */
  predicate WellFormed(f: CardFilter)
    ensures !WellFormed(f) ==> forall now :: Render(f, now) == ")"
    ensures !WellFormed(f) ==> forall row, now :: !Holds(f, row, now)
  {
    !(f.Topics? && |f.ids| == 0)
  }

  /** A comparison against a NULL column admits no row. */
  predicate Greater(col: Option<int>, bound: int) {
    col.Some? && col.value > bound
  }

  predicate Less(col: Option<int>, bound: int) {
    col.Some? && col.value < bound
  }

  /** Whether a joined card row satisfies the filter at clock reading `now`. */
  predicate Holds(f: CardFilter, row: StoredCard, now: int)
    ensures Holds(f, row, now) && f.Cardtype? ==> Decode(row.cardtype) == Some(f.cardtype)
    ensures Holds(f, row, now) && (f.Minstability? || f.Maxstability?) ==> row.stability.Some?
    ensures Holds(f, row, now) && f.StrengthRange? ==> row.strength.Some? && f.lo <= f.hi
    ensures Holds(f, row, now) && (f.MinPosition? || f.MaxPosition?) ==> row.position.Some?
    ensures Holds(f, row, now) && (f.MinSkipDaysPassed? || f.MaxSkipDaysPassed? || f.DueUnfinished?) ==>
      row.skiptime.Some?
    ensures Holds(f, row, now) && f.Topics? ==> |f.ids| > 0
  {
    match f
    case Suspended(v) => row.suspended == v
    case Resolved(v) => row.resolved == v
    case Cardtype(t) => row.cardtype == Encode(t)
    case Pending(v) => (row.cardtype == Encode(CardType.Pending)) == v
    case Unfinished(v) => (row.cardtype == Encode(CardType.Unfinished)) == v
    case Finished(v) => (row.cardtype == Encode(CardType.Finished)) == v
    case DueUnfinished =>
      row.skiptime.Some? && row.skipduration.Some? &&
      now - row.skiptime.value > row.skipduration.value * UnfinishedDueDay
    case MaxSkipDaysPassed(d) => Less(row.skiptime, now - d * SecondsPerDay)
    case MinSkipDaysPassed(d) => Greater(row.skiptime, now - d * SecondsPerDay)
    case Source(v) => row.source == v
    case MaxPosition(v) => Less(row.position, v)
    case MinPosition(v) => Greater(row.position, v)
    case Minstability(v) => Greater(row.stability, v)
    case Maxstability(v) => Less(row.stability, v)
    case StrengthRange(lo, hi) =>
      row.strength.Some? && lo <= row.strength.value <= hi
    case Contains(s) => IsSubstring(s, row.question) || IsSubstring(s, row.answer)
    case Topics(ids) => row.topic in ids
  }

  // ---------------------------------------------------------------------
  // Topic lists

  /** A nonempty topic list renders as its terms joined by ` OR ` inside
      parentheses: the four `pop`s remove exactly the final ` OR `. */
  lemma {:induction false} TopicsTextShape(ids: seq<nat>)
    requires |ids| > 0
    ensures TopicsText(ids) == "(" + Join(" OR ", TopicTerms(ids)) + ")"
  {
    var terms := TopicTerms(ids);
    PopTerminated("(", " OR ", terms, 4);
    assert " OR "[..0] == "";
    assert PopN("(" + Terminated(" OR ", terms), 4) == "(" + Join(" OR ", terms);
  }

  /** An empty topic list renders as a lone closing parenthesis: the four
      `pop`s eat the opening one. */
  lemma TopicsRenderEmpty(now: int)
    ensures Render(Topics([]), now) == ")"
    ensures !WellFormed(Topics([]))
  {
    assert PopN("(", 4) == "";
  }

  /** A topic filter admits a card exactly when the card's topic is one of
      the listed ids; the ids `[1, 3]` admit topics 1 and 3 but not 2. */
  lemma TopicsSemantics(ids: seq<nat>, row: StoredCard, now: int)
    ensures Holds(Topics(ids), row, now) <==> exists i :: 0 <= i < |ids| && ids[i] == row.topic
    ensures ids == [1, 3] ==> (Holds(Topics(ids), row, now) <==> row.topic == 1 || row.topic == 3)
  {
  }

  // ---------------------------------------------------------------------
  // Stage filters and the cardtype code

  /** The shorthand filter for a stage with the given flag. */
  function Shorthand(t: CardType, v: bool): CardFilter {
    match t
    case Pending => CardFilter.Pending(v)
    case Unfinished => CardFilter.Unfinished(v)
    case Finished => CardFilter.Finished(v)
  }

  /** `pending(true)` and its siblings are written and evaluated exactly as
      `cardtype(T)`; with `false` they are written with `!=` and admit
      exactly the rows `cardtype(T)` rejects. */
  lemma ShorthandAgreesWithCardtype(t: CardType, v: bool, row: StoredCard, now: int)
    ensures v ==> Render(Shorthand(t, v), now) == Render(Cardtype(t), now)
    ensures !v ==> Render(Shorthand(t, v), now) == "cardtype != " + NatToString(Encode(t))
    ensures Holds(Shorthand(t, v), row, now) <==> (Holds(Cardtype(t), row, now) == v)
  {
  }

  /** The number written by a stage filter decodes back to that stage. */
  lemma CardtypeTextRoundTrip(t: CardType, now: int)
    ensures |Render(Cardtype(t), now)| > 11
    ensures Render(Cardtype(t), now)[..11] == "cardtype = "
    ensures forall i :: 11 <= i < |Render(Cardtype(t), now)| ==> IsDigit(Render(Cardtype(t), now)[i])
    ensures Decode(ParseNat(Render(Cardtype(t), now)[11..])) == Some(t)
  {
    var s := Render(Cardtype(t), now);
    assert s[11..] == NatToString(Encode(t));
    ParseNatToString(Encode(t));
  }

  // ---------------------------------------------------------------------
  // Comparison boundaries

  /** The strength range includes both of its ends. */
  lemma StrengthRangeInclusive(lo: int, hi: int, row: StoredCard, now: int)
    requires row.strength.Some?
    ensures Holds(StrengthRange(lo, hi), row, now) <==> lo <= row.strength.value <= hi
    ensures row.strength.value == lo && lo <= hi ==> Holds(StrengthRange(lo, hi), row, now)
    ensures row.strength.value == hi && lo <= hi ==> Holds(StrengthRange(lo, hi), row, now)
  {
  }

  /** Minimum and maximum bounds are strict: a row sitting exactly on the
      bound is excluded by both, so the two never overlap at one bound. */
  lemma StrictBounds(v: nat, row: StoredCard, now: int)
    ensures row.stability == Some(v as int) ==>
      !Holds(Minstability(v), row, now) && !Holds(Maxstability(v), row, now)
    ensures row.position == Some(v as int) ==>
      !Holds(MinPosition(v), row, now) && !Holds(MaxPosition(v), row, now)
    ensures !(Holds(Minstability(v), row, now) && Holds(Maxstability(v), row, now))
    ensures !(Holds(MinPosition(v), row, now) && Holds(MaxPosition(v), row, now))
    ensures row.stability.Some? && row.stability.value != v ==>
      Holds(Minstability(v), row, now) || Holds(Maxstability(v), row, now)
    ensures row.position.Some? && row.position.value != v ==>
      Holds(MinPosition(v), row, now) || Holds(MaxPosition(v), row, now)
  {
  }

  /** Which way each bound points: a minimum is written and tested with `>`,
      a maximum with `<`, and the strength range with an inclusive
      `BETWEEN`. */
  lemma MinMaxDirection(v: nat, lo: int, hi: int, row: StoredCard, now: int)
    ensures Holds(Minstability(v), row, now) <==> row.stability.Some? && row.stability.value > v
    ensures Holds(Maxstability(v), row, now) <==> row.stability.Some? && row.stability.value < v
    ensures Holds(MinPosition(v), row, now) <==> row.position.Some? && row.position.value > v
    ensures Holds(MaxPosition(v), row, now) <==> row.position.Some? && row.position.value < v
    ensures Render(Minstability(v), now) == "stability > " + NatToString(v)
    ensures Render(Maxstability(v), now) == "stability < " + NatToString(v)
    ensures Render(MinPosition(v), now) == "position > " + NatToString(v)
    ensures Render(MaxPosition(v), now) == "position < " + NatToString(v)
    ensures Render(StrengthRange(lo, hi), now) ==
      "strength BETWEEN " + IntToString(lo) + " and " + IntToString(hi)
  {
  }

  /** A card with no finished-card row (NULL stability and strength) passes
      none of the stability or strength filters. */
  lemma NullColumnsRejected(f: CardFilter, row: StoredCard, now: int)
    requires f.Minstability? || f.Maxstability? || f.StrengthRange?
    requires row.stability.None? && row.strength.None?
    ensures !Holds(f, row, now)
  {
  }

  /** The text filter admits a card exactly when the text occurs in its
      question or its answer; the empty text admits every card. */
  lemma ContainsSemantics(s: string, row: StoredCard, now: int)
    ensures Holds(Contains(s), row, now) <==> IsSubstring(s, row.question) || IsSubstring(s, row.answer)
    ensures Holds(Contains(""), row, now)
  {
    assert OccursAt("", row.question, 0);
  }

  // ---------------------------------------------------------------------
  // Skip windows

  /** `MinSkipDaysPassed(d)` admits the cards skipped less than `d` days
      before `now`, and `MaxSkipDaysPassed(d)` those skipped more than `d`
      days before; a card skipped exactly `d` days before passes neither. */
  lemma SkipDaysWindows(d: int, row: StoredCard, now: int)
    requires row.skiptime.Some?
    ensures Holds(MinSkipDaysPassed(d), row, now) <==> now - row.skiptime.value < d * SecondsPerDay
    ensures Holds(MaxSkipDaysPassed(d), row, now) <==> now - row.skiptime.value > d * SecondsPerDay
    ensures !(Holds(MinSkipDaysPassed(d), row, now) && Holds(MaxSkipDaysPassed(d), row, now))
  {
  }

  /** An unfinished card skipped two days ago with a one-day postponement is
      due; with a three-day postponement it is not. */
  lemma DueUnfinishedScenario(row: StoredCard, now: int)
    requires row.skiptime == Some(now - 2 * SecondsPerDay)
    ensures row.skipduration == Some(1) ==> Holds(DueUnfinished, row, now)
    ensures row.skipduration == Some(3) ==> !Holds(DueUnfinished, row, now)
  {
  }

  /** A source filter names its source unambiguously: two different source
      ids never render to the same condition. */
  lemma SourceRenderInjective(a: nat, b: nat, now: int)
    requires Render(Source(a), now) == Render(Source(b), now)
    ensures a == b
  {
    var ra, rb := Render(Source(a), now), Render(Source(b), now);
    assert ra == "source = " + NatToString(a);
    assert rb == "source = " + NatToString(b);
    assert ra[9..] == NatToString(a);
    assert rb[9..] == NatToString(b);
    NatToStringInjective(a, b);
  }

}

=== FILE: incread.dfy ===
/** Incremental-reading items: which ones are due to resurface, and the
    short title shown for an item's text. */
module IncRead {
  import opened Text
  import opened Results
  import Cards
  import Filters

  /** One row of the `incread` table; `parent` is 0 for a top-level source. */
  datatype IncItem = IncItem(
    id: nat,
    parent: nat,
    topic: nat,
    text: string,
    active: bool,
    skiptime: int,
    skipduration: int)

  /** An item resurfaces when it is active and strictly more than its
      postponement, in whole days of 86400 seconds, has passed since it was
      skipped. */
  predicate IncDue(item: IncItem, now: int)
    ensures IncDue(item, now) ==> item.active
    ensures IncDue(item, now) && item.skipduration >= 0 ==> now > item.skiptime
    ensures item.active && item.skipduration <= 0 && now > item.skiptime ==> IncDue(item, now)
  {
    item.active && now - item.skiptime > item.skipduration * Filters.SecondsPerDay
  }

  /** Ids of the due items, in table order. Extracts are included as well as
      top-level sources: the selection does not look at `parent`. */
  function LoadActiveInc(items: seq<IncItem>, now: int): (r: seq<nat>)
    ensures |r| <= |items|
    ensures forall id :: id in r <==> exists i :: 0 <= i < |items| && items[i].id == id && IncDue(items[i], now)
  {
    if |items| == 0 then []
    else
      var rest := LoadActiveInc(items[1..], now);
      assert forall i :: 1 <= i < |items| ==> items[1..][i - 1] == items[i];
      if IncDue(items[0], now) then [items[0].id] + rest else rest
  }

  /** An inactive item never resurfaces, and an item skipped exactly its
      postponement ago is not yet due. */
  lemma IncDueBoundary(item: IncItem, now: int)
    ensures !item.active ==> !IncDue(item, now)
    ensures now - item.skiptime == item.skipduration * Filters.SecondsPerDay ==> !IncDue(item, now)
    ensures item.active && now - item.skiptime == item.skipduration * Filters.SecondsPerDay + 1 ==> IncDue(item, now)
  {
  }

  /** The unfinished-card rule multiplies by 84600 instead of 86400, so its
      window is shorter: whatever an item's rule finds due, the card rule
      with the same skip values finds due too, while a card postponed one
      day comes due 1800 seconds before a day has passed. */
  lemma UnfinishedWindowShorter(item: IncItem, row: Cards.StoredCard, now: int)
    requires item.skipduration >= 0
    requires row.skiptime == Some(item.skiptime) && row.skipduration == Some(item.skipduration)
    ensures IncDue(item, now) ==> Filters.Holds(Filters.DueUnfinished, row, now)
    ensures item.active && item.skipduration == 1 && now - item.skiptime == 85000 ==>
      Filters.Holds(Filters.DueUnfinished, row, now) && !IncDue(item, now)
  {
  }

  /** The title of an item's text: the text cut to `titlelen` characters,
      or "Empty Source" when fewer than five characters remain. */
  function IncTitle(text: string, titlelen: nat): (r: string)
    ensures |r| >= 5
    ensures (if |text| < titlelen then |text| else titlelen) >= 5 ==> r <= text && |r| == if |text| < titlelen then |text| else titlelen
    ensures (if |text| < titlelen then |text| else titlelen) < 5 ==> r == "Empty Source"
  {
    var cut := Truncate(text, titlelen);
    if |cut| < 5 then "Empty Source" else cut
  }

  /** A title length below five always gives "Empty Source". */
  lemma ShortTitleIsEmptySource(text: string, titlelen: nat)
    requires titlelen < 5
    ensures IncTitle(text, titlelen) == "Empty Source"
  {
  }

  /** The first item with the given id, if any: the same first-match search
      as `Cards.Lookup`, over `incread` rows instead of card rows. */
  function FindItem(items: seq<IncItem>, id: nat): (r: Option<IncItem>)
    ensures r.None? <==> forall i :: 0 <= i < |items| ==> items[i].id != id
    ensures r.Some? ==> r.value in items && r.value.id == id
  {
    if |items| == 0 then None
    else if items[0].id == id then Some(items[0])
    else FindItem(items[1..], id)
  }

  /** The title of the item with the given id; `NotFound` when no item has
      that id. */
  function LoadIncTitle(items: seq<IncItem>, id: nat, titlelen: nat): (r: Result<string>)
    ensures r.Failure? <==> forall i :: 0 <= i < |items| ==> items[i].id != id
    ensures r.Failure? ==> r.error == NotFound(id)
    ensures r.Success? ==> exists i :: 0 <= i < |items| && items[i].id == id && r.value == IncTitle(items[i].text, titlelen)
  {
    match FindItem(items, id)
    case None => Failure(NotFound(id))
    case Some(item) => Success(IncTitle(item.text, titlelen))
  }
}

=== FILE: query.dfy ===
/** The card query builder: an ordered list of filters, all of which must
    hold, plus an optional cap on the number of results; the query text it
    renders; and its result over an in-memory card table. */
module Query {
  import opened Text
  import opened Results
  import Cards
  import Filters

  type CardFilter = Filters.CardFilter
  type StoredCard = Cards.StoredCard

  datatype CardQuery = CardQuery(filters: seq<CardFilter>, limit: Option<nat>)

  /** The query every chain of builder calls starts from. */
  const Default: CardQuery := CardQuery([], None)

  // ---------------------------------------------------------------------
  // Meaning: a query admits a row when every one of its filters holds

  /** Every filter of `fs` holds of `row`, checked front to back. */
  predicate AllHold(fs: seq<CardFilter>, row: StoredCard, now: int) {
    |fs| == 0 || (Filters.Holds(fs[0], row, now) && AllHold(fs[1..], row, now))
  }

  lemma {:induction false} AllHoldIff(fs: seq<CardFilter>, row: StoredCard, now: int)
    ensures AllHold(fs, row, now) <==> forall i :: 0 <= i < |fs| ==> Filters.Holds(fs[i], row, now)
  {
    if |fs| > 0 {
      AllHoldIff(fs[1..], row, now);
      assert forall i :: 1 <= i < |fs| ==> fs[1..][i - 1] == fs[i];
    }
  }

  predicate Accepts(q: CardQuery, row: StoredCard, now: int) {
    AllHold(q.filters, row, now)
  }

  /** The order in which filters were declared, and repeats among them, do
      not change which rows a query admits. */
  lemma OrderIrrelevant(q1: CardQuery, q2: CardQuery, row: StoredCard, now: int)
    requires forall f :: f in q1.filters <==> f in q2.filters
    ensures Accepts(q1, row, now) <==> Accepts(q2, row, now)
  {
    AllHoldIff(q1.filters, row, now);
    AllHoldIff(q2.filters, row, now);
    if Accepts(q1, row, now) {
      forall i | 0 <= i < |q2.filters| ensures Filters.Holds(q2.filters[i], row, now) {
        assert q2.filters[i] in q1.filters;
      }
    }
    if Accepts(q2, row, now) {
      forall i | 0 <= i < |q1.filters| ensures Filters.Holds(q1.filters[i], row, now) {
        assert q1.filters[i] in q2.filters;
      }
    }
  }

  /** A query without filters admits every row. */
  lemma EmptyAdmitsAll(q: CardQuery, row: StoredCard, now: int)
    requires q.filters == []
    ensures Accepts(q, row, now)
  {
  }

  // ---------------------------------------------------------------------
  // Builder calls

  /** `r` is `q` with `f` added as its last filter and the cap untouched. */
  predicate Appended(q: CardQuery, r: CardQuery, f: CardFilter) {
    r.filters == q.filters + [f] && r.limit == q.limit
  }

  /** Adds one filter at the end. The new query admits exactly the rows the
      old one admits that also satisfy the new filter. */
  function Push(q: CardQuery, f: CardFilter): (r: CardQuery)
    ensures Appended(q, r, f)
    ensures forall row, now :: Accepts(r, row, now) <==> Accepts(q, row, now) && Filters.Holds(f, row, now)
  {
    var r := q.(filters := q.filters + [f]);
    forall row, now ensures Accepts(r, row, now) <==> Accepts(q, row, now) && Filters.Holds(f, row, now) {
      AllHoldIff(q.filters, row, now);
      AllHoldIff(r.filters, row, now);
      assert r.filters[|q.filters|] == f;
      assert forall i :: 0 <= i < |q.filters| ==> r.filters[i] == q.filters[i];
    }
    r
  }

  function Suspended(q: CardQuery, val: bool): (r: CardQuery)
    ensures Appended(q, r, Filters.Suspended(val))
  {
    Push(q, Filters.Suspended(val))
  }

  function Resolved(q: CardQuery, val: bool): (r: CardQuery)
    ensures Appended(q, r, Filters.Resolved(val))
  {
    Push(q, Filters.Resolved(val))
  }

  function Finished(q: CardQuery, val: bool): (r: CardQuery)
    ensures Appended(q, r, Filters.Finished(val))
  {
    Push(q, Filters.Finished(val))
  }

  function Unfinished(q: CardQuery, val: bool): (r: CardQuery)
    ensures Appended(q, r, Filters.Unfinished(val))
  {
    Push(q, Filters.Unfinished(val))
  }

  function Pending(q: CardQuery, val: bool): (r: CardQuery)
    ensures Appended(q, r, Filters.Pending(val))
  {
    Push(q, Filters.Pending(val))
  }

  function Strength(q: CardQuery, lo: int, hi: int): (r: CardQuery)
    ensures Appended(q, r, Filters.StrengthRange(lo, hi))
  {
    Push(q, Filters.StrengthRange(lo, hi))
  }

  function MinimumStability(q: CardQuery, val: nat): (r: CardQuery)
    ensures Appended(q, r, Filters.Minstability(val))
  {
    Push(q, Filters.Minstability(val))
  }

  function MaxStability(q: CardQuery, val: nat): (r: CardQuery)
    ensures Appended(q, r, Filters.Maxstability(val))
  {
    Push(q, Filters.Maxstability(val))
  }

  function Contains(q: CardQuery, val: string): (r: CardQuery)
    ensures Appended(q, r, Filters.Contains(val))
  {
    Push(q, Filters.Contains(val))
  }

  function Topics(q: CardQuery, val: seq<nat>): (r: CardQuery)
    ensures Appended(q, r, Filters.Topics(val))
  {
    Push(q, Filters.Topics(val))
  }

  function MinimumPosition(q: CardQuery, val: nat): (r: CardQuery)
    ensures Appended(q, r, Filters.MinPosition(val))
  {
    Push(q, Filters.MinPosition(val))
  }

  function MaxPosition(q: CardQuery, val: nat): (r: CardQuery)
    ensures Appended(q, r, Filters.MaxPosition(val))
  {
    Push(q, Filters.MaxPosition(val))
  }

  function MinimumDaysSinceSkip(q: CardQuery, val: int): (r: CardQuery)
    ensures Appended(q, r, Filters.MinSkipDaysPassed(val))
  {
    Push(q, Filters.MinSkipDaysPassed(val))
  }

  function MaxDaysSinceSkip(q: CardQuery, val: int): (r: CardQuery)
    ensures Appended(q, r, Filters.MaxSkipDaysPassed(val))
  {
    Push(q, Filters.MaxSkipDaysPassed(val))
  }

  function Source(q: CardQuery, val: nat): (r: CardQuery)
    ensures Appended(q, r, Filters.Source(val))
  {
    Push(q, Filters.Source(val))
  }

  function UnfinishedDue(q: CardQuery): (r: CardQuery)
    ensures Appended(q, r, Filters.DueUnfinished)
  {
    Push(q, Filters.DueUnfinished)
  }

  function Cardtype(q: CardQuery, val: Cards.CardType): (r: CardQuery)
    ensures Appended(q, r, Filters.Cardtype(val))
  {
    Push(q, Filters.Cardtype(val))
  }

  /** Sets the cap, replacing any earlier one; the filters are untouched. */
  function Limit(q: CardQuery, n: nat): (r: CardQuery)
    ensures r.filters == q.filters && r.limit == Some(n)
    ensures forall row, now :: Accepts(r, row, now) <==> Accepts(q, row, now)
  {
    q.(limit := Some(n))
  }

  // ---------------------------------------------------------------------
  // Chains of builder calls

  /** One call in a builder chain: a filter method or `limit`. */
  datatype BuilderCall = AddFilter(filter: CardFilter) | SetLimit(n: nat)

  function Apply(q: CardQuery, c: BuilderCall): CardQuery {
    match c
    case AddFilter(f) => Push(q, f)
    case SetLimit(n) => Limit(q, n)
  }

  /** The query a chain of calls builds, starting from the default query. */
  function Chain(calls: seq<BuilderCall>): CardQuery {
    if |calls| == 0 then Default
    else Apply(Chain(calls[..|calls| - 1]), calls[|calls| - 1])
  }

  /** The filters of the chain's filter calls, in call order. */
  function AddedFilters(calls: seq<BuilderCall>): seq<CardFilter> {
    if |calls| == 0 then []
    else (if calls[0].AddFilter? then [calls[0].filter] else []) + AddedFilters(calls[1..])
  }

  /** The argument of the chain's last `limit` call, if there is one. */
  function LastLimit(calls: seq<BuilderCall>): Option<nat> {
    if |calls| == 0 then None
    else match LastLimit(calls[1..])
      case Some(n) => Some(n)
      case None => if calls[0].SetLimit? then Some(calls[0].n) else None
  }

  lemma {:induction false} AddedFiltersSnoc(calls: seq<BuilderCall>, c: BuilderCall)
    ensures AddedFilters(calls + [c]) == AddedFilters(calls) + (if c.AddFilter? then [c.filter] else [])
  {
    var last: seq<CardFilter> := if c.AddFilter? then [c.filter] else [];
    if |calls| == 0 {
      assert calls + [c] == [c];
    } else {
      var first: seq<CardFilter> := if calls[0].AddFilter? then [calls[0].filter] else [];
      var longer := calls + [c];
      assert longer[0] == calls[0];
      assert longer[1..] == calls[1..] + [c];
      AddedFiltersSnoc(calls[1..], c);
      assert AddedFilters(longer) == first + (AddedFilters(calls[1..]) + last);
      assert first + (AddedFilters(calls[1..]) + last) == (first + AddedFilters(calls[1..])) + last;
    }
  }

  lemma {:induction false} LastLimitSnoc(calls: seq<BuilderCall>, c: BuilderCall)
    ensures LastLimit(calls + [c]) == if c.SetLimit? then Some(c.n) else LastLimit(calls)
  {
    if |calls| == 0 {
      assert calls + [c] == [c];
    } else {
      assert (calls + [c])[1..] == calls[1..] + [c];
      LastLimitSnoc(calls[1..], c);
    }
  }

  /** A chain keeps every filter call, in order, and the cap of its last
      `limit` call: the last `limit` wins. */
  lemma {:induction false} ChainResult(calls: seq<BuilderCall>)
    ensures Chain(calls).filters == AddedFilters(calls)
    ensures Chain(calls).limit == LastLimit(calls)
  {
    if |calls| > 0 {
      var init := calls[..|calls| - 1];
      var c := calls[|calls| - 1];
      assert calls == init + [c];
      ChainResult(init);
      AddedFiltersSnoc(init, c);
      LastLimitSnoc(init, c);
    }
  }

  // ---------------------------------------------------------------------
  // Query text

  /** Everything before the condition: the selection over the card table
      joined with its three extension tables, ending in whitespace. */
  const Prefix: string :=
    "SELECT * \n"
    + "            FROM cards\n"
    + "            LEFT OUTER JOIN finished_cards\n"
    + "            ON cards.id = finished_cards.id \n"
    + "            LEFT OUTER JOIN unfinished_cards\n"
    + "            ON cards.id = unfinished_cards.id \n"
    + "            LEFT OUTER JOIN pending_cards\n"
    + "            ON cards.id = pending_cards.id\n"
    + "\n"
    + "            "

  function Renders(fs: seq<CardFilter>, now: int): (r: seq<string>)
    ensures |r| == |fs|
  {
    seq(|fs|, i requires 0 <= i < |fs| => Filters.Render(fs[i], now))
  }

  /** No condition for no filters; otherwise `WHERE ` and the filters joined
      by ` and `, followed by a single space. */
  function WhereText(fs: seq<CardFilter>, now: int): string {
    if |fs| == 0 then "" else "WHERE " + Join(" and ", Renders(fs, now)) + " "
  }

  function LimitText(limit: Option<nat>): string {
    match limit
    case None => ""
    case Some(n) => "LIMIT " + NatToString(n)
  }

  lemma RendersSnoc(fs: seq<CardFilter>, i: nat, now: int)
    requires i < |fs|
    ensures Renders(fs[..i + 1], now) == Renders(fs[..i], now) + [Filters.Render(fs[i], now)]
  {
  }

  /** The condition part of the query: `WHERE ` followed by one
      `<filter> and ` per filter, then four `pop`s; nothing without filters. */
  method WhereClause(fs: seq<CardFilter>, now: int) returns (clause: string)
    ensures clause == WhereText(fs, now)
  {
    clause := "";
    if |fs| > 0 {
      var body := "";
      var i := 0;
      while i < |fs|
        invariant 0 <= i <= |fs|
        invariant body == Terminated(" and ", Renders(fs[..i], now))
      {
        var text := Filters.Render(fs[i], now);
        RendersSnoc(fs, i, now);
        TerminatedSnoc(" and ", Renders(fs[..i], now), text);
        body := body + text + " and ";
        i := i + 1;
      }
      assert fs[..i] == fs;
      PopTerminated("WHERE ", " and ", Renders(fs, now), 4);
      assert " and "[..1] == " ";
      clause := PopN("WHERE " + body, 4);
    }
  }

  /** Renders the whole query: the prefix, the condition (the filters joined
      by ` and ` with one trailing space, absent without filters), and
      `LIMIT n` exactly when a cap is set. The four pops run only when there
      is at least one filter, so they always fall inside the final ` and `
      and never reach the prefix: popping the condition on its own is the
      same as popping the whole text. */
  method MakeQuery(q: CardQuery, now: int) returns (query: string)
    ensures query == Prefix + WhereText(q.filters, now) + LimitText(q.limit)
  {
    var clause := WhereClause(q.filters, now);
    query := Prefix + clause;
    match q.limit {
      case Some(n) => query := query + "LIMIT " + NatToString(n);
      case None =>
    }
  }

  // ---------------------------------------------------------------------
  // Results over an in-memory table

  /** The rows of `table` that every filter admits, in table order. */
  function Matching(fs: seq<CardFilter>, table: seq<StoredCard>, now: int): (r: seq<StoredCard>)
    ensures |r| <= |table|
    ensures forall row :: row in r <==> row in table && AllHold(fs, row, now)
  {
    if |table| == 0 then []
    else
      var init := Matching(fs, table[..|table| - 1], now);
      var last := table[|table| - 1];
      assert table == table[..|table| - 1] + [last];
      init + (if AllHold(fs, last, now) then [last] else [])
  }

  /** One more table row adds that row to the selection exactly when it
      satisfies every filter. */
  lemma MatchingStep(fs: seq<CardFilter>, table: seq<StoredCard>, i: nat, now: int)
    requires i < |table|
    ensures Matching(fs, table[..i + 1], now) ==
      Matching(fs, table[..i], now) + (if AllHold(fs, table[i], now) then [table[i]] else [])
  {
    assert table[..i + 1][..i] == table[..i];
  }

  lemma {:induction false} MatchingPrefix(fs: seq<CardFilter>, table: seq<StoredCard>, i: nat, now: int)
    requires i <= |table|
    ensures Matching(fs, table[..i], now) <= Matching(fs, table, now)
    decreases |table| - i
  {
    if i < |table| {
      MatchingPrefix(fs, table, i + 1, now);
      MatchingStep(fs, table, i, now);
      var shorter, longer := Matching(fs, table[..i], now), Matching(fs, table[..i + 1], now);
      assert shorter <= longer;
    } else {
      assert table[..i] == table;
    }
  }

  /** The first `n` elements when a cap `n` is given, all of them otherwise. */
  function Take<T>(s: seq<T>, limit: Option<nat>): (r: seq<T>)
    ensures r <= s
    ensures limit.None? ==> r == s
    ensures limit.Some? ==> |r| == if |s| < limit.value then |s| else limit.value
  {
    match limit
    case None => s
    case Some(n) => if |s| <= n then s else s[..n]
  }

  /** Runs a query over the table: a query carrying a filter whose text is
      not a valid condition fails; otherwise the result is the matching rows
      in table order, cut to the cap. */
  method Execute(q: CardQuery, table: seq<StoredCard>, now: int) returns (res: Result<seq<StoredCard>>)
    ensures res.Failure? <==> exists i :: 0 <= i < |q.filters| && !Filters.WellFormed(q.filters[i])
    ensures res.Failure? ==> res.error == MalformedQuery
    ensures res.Success? ==> res.value == Take(Matching(q.filters, table, now), q.limit)
  {
    if exists i :: 0 <= i < |q.filters| && !Filters.WellFormed(q.filters[i]) {
      return Failure(MalformedQuery);
    }
    var rows: seq<StoredCard> := [];
    var i := 0;
    while i < |table| && (q.limit.None? || |rows| < q.limit.value)
      invariant 0 <= i <= |table|
      invariant rows == Matching(q.filters, table[..i], now)
      invariant q.limit.Some? ==> |rows| <= q.limit.value
    {
      var row := table[i];
      MatchingStep(q.filters, table, i, now);
      if AllHold(q.filters, row, now) {
        rows := rows + [row];
      }
      i := i + 1;
    }
    MatchingPrefix(q.filters, table, i, now);
    if i == |table| {
      assert table[..i] == table;
    }
    return Success(rows);
  }

  /** Ids of the selected cards. Every id comes from a row that satisfies
      every filter; without a cap, every such row contributes its id. */
  method FetchCardIds(q: CardQuery, table: seq<StoredCard>, now: int) returns (res: Result<seq<nat>>)
    ensures res.Failure? <==> exists i :: 0 <= i < |q.filters| && !Filters.WellFormed(q.filters[i])
    ensures res.Success? && q.limit.Some? ==> |res.value| <= q.limit.value
    ensures res.Success? ==> forall k :: 0 <= k < |res.value| ==>
      exists row :: (row in table && row.id == res.value[k] &&
        forall j :: 0 <= j < |q.filters| ==> Filters.Holds(q.filters[j], row, now))
    ensures res.Success? && q.limit.None? ==> forall row :: row in table && Accepts(q, row, now) ==> row.id in res.value
    ensures res.Success? ==>
      var rows := Take(Matching(q.filters, table, now), q.limit);
      |res.value| == |rows| && forall k :: 0 <= k < |rows| ==> res.value[k] == rows[k].id
  {
    var rows := Execute(q, table, now);
    if rows.Failure? {
      return Failure(rows.error);
    }
    var selected := rows.value;
    var ids := seq(|selected|, k requires 0 <= k < |selected| => selected[k].id);
    assert forall k :: 0 <= k < |selected| ==> ids[k] == selected[k].id;
    SelectedIds(q, table, now, ids);
    return Success(ids);
  }

  /** The ids of the capped matching rows, taken one per row, come from
      rows satisfying every filter, and without a cap they cover every
      accepted row. */
  lemma SelectedIds(q: CardQuery, table: seq<StoredCard>, now: int, ids: seq<nat>)
    requires var rows := Take(Matching(q.filters, table, now), q.limit);
      |ids| == |rows| && forall k :: 0 <= k < |rows| ==> ids[k] == rows[k].id
    ensures q.limit.Some? ==> |ids| <= q.limit.value
    ensures forall k :: 0 <= k < |ids| ==>
      exists row :: (row in table && row.id == ids[k] &&
        forall j :: 0 <= j < |q.filters| ==> Filters.Holds(q.filters[j], row, now))
    ensures q.limit.None? ==> forall row :: row in table && Accepts(q, row, now) ==> row.id in ids
  {
    var rows := Take(Matching(q.filters, table, now), q.limit);
    forall k | 0 <= k < |ids|
      ensures exists row :: (row in table && row.id == ids[k] &&
        forall j :: 0 <= j < |q.filters| ==> Filters.Holds(q.filters[j], row, now))
    {
      var row := rows[k];
      assert row in Matching(q.filters, table, now);
      AllHoldIff(q.filters, row, now);
    }
    if q.limit.None? {
      assert rows == Matching(q.filters, table, now);
      forall row | row in table && Accepts(q, row, now) ensures row.id in ids {
        assert row in rows;
        var k :| 0 <= k < |rows| && rows[k] == row;
        assert ids[k] == row.id;
      }
    }
  }

  /** A list entry for a card: its id and question. */
  datatype CardItem = CardItem(id: nat, question: string)

  /** Id and question of each selected card, in the same order as the ids
      `FetchCardIds` returns. */
  method FetchCardItems(q: CardQuery, table: seq<StoredCard>, now: int) returns (res: Result<seq<CardItem>>)
    ensures res.Failure? <==> exists i :: 0 <= i < |q.filters| && !Filters.WellFormed(q.filters[i])
    ensures res.Success? ==>
      var rows := Take(Matching(q.filters, table, now), q.limit);
      |res.value| == |rows| &&
      forall k :: 0 <= k < |rows| ==> res.value[k] == CardItem(rows[k].id, rows[k].question)
  {
    var rows := Execute(q, table, now);
    if rows.Failure? {
      return Failure(rows.error);
    }
    var items := seq(|rows.value|, k requires 0 <= k < |rows.value| => CardItem(rows.value[k].id, rows.value[k].question));
    return Success(items);
  }
}

=== FILE: results.dfy ===
/** Outcomes of store accesses. Where speki unwraps or
    panics, the model returns a typed failure instead. */
module Results {

  datatype Option<T> = None | Some(value: T)

  /** Why an access to the store could not produce a value. */
  datatype StoreError =
    | NotFound(id: nat)            // no row carries the requested id
    | MalformedQuery               // the rendered query text is not a valid condition
    | InvariantViolation(code: int) // a stored cardtype code outside 0, 1, 2

  datatype Result<T> = Success(value: T) | Failure(error: StoreError)
}

=== FILE: text.dfy ===
/** Text helpers: decimal rendering of numbers (Rust's `{}` Display for
    integers), joining with a separator, `String::pop`, and substring tests. */
module Text {

  predicate IsDigit(c: char) {
    '0' <= c <= '9'
  }

  function DigitChar(d: nat): (c: char)
    requires d < 10
    ensures IsDigit(c)
    ensures c as int - '0' as int == d
  {
    "0123456789"[d]
  }

  function DigitValue(c: char): nat
    requires IsDigit(c)
  {
    c as int - '0' as int
  }

  /** The decimal text of a natural number, without sign or leading zeros. */
  function NatToString(n: nat): (s: string)
    ensures |s| >= 1
    ensures forall i :: 0 <= i < |s| ==> IsDigit(s[i])
    ensures |s| > 1 ==> s[0] != '0'
  {
    if n < 10 then [DigitChar(n)] else NatToString(n / 10) + [DigitChar(n % 10)]
  }

  /** The decimal text of an integer, with a leading '-' when negative. */
  function IntToString(i: int): (s: string)
    ensures |s| >= 1
    ensures (i < 0) <==> s[0] == '-'
  {
    if i < 0 then "-" + NatToString(-i) else NatToString(i)
  }

  /** Reads a string of decimal digits back into the number it denotes. */
  function ParseNat(s: string): nat
    requires forall i :: 0 <= i < |s| ==> IsDigit(s[i])
  {
    if |s| == 0 then 0 else 10 * ParseNat(s[..|s| - 1]) + DigitValue(s[|s| - 1])
  }

  /** Decimal rendering loses nothing: parsing it gives the number back, so
      two different identifiers never render to the same text. */
  lemma {:induction false} ParseNatToString(n: nat)
    ensures ParseNat(NatToString(n)) == n
  {
    var s := NatToString(n);
    if n >= 10 {
      ParseNatToString(n / 10);
      assert s[..|s| - 1] == NatToString(n / 10);
    }
  }

  lemma NatToStringInjective(a: nat, b: nat)
    requires NatToString(a) == NatToString(b)
    ensures a == b
  {
    ParseNatToString(a);
    ParseNatToString(b);
  }

  /** `parts` separated by `sep`: the shape a loop of `push(part + sep)`
      followed by removing the final separator is meant to produce. */
  function Join(sep: string, parts: seq<string>): string
  {
    if |parts| == 0 then ""
    else if |parts| == 1 then parts[0]
    else parts[0] + sep + Join(sep, parts[1..])
  }

  /** Every part followed by `sep`, concatenated: what a loop pushing
      `part + sep` for each part leaves behind. */
  function Terminated(sep: string, parts: seq<string>): string
  {
    if |parts| == 0 then "" else parts[0] + sep + Terminated(sep, parts[1..])
  }

  lemma {:induction false} TerminatedIsJoinPlusSep(sep: string, parts: seq<string>)
    requires |parts| > 0
    ensures Terminated(sep, parts) == Join(sep, parts) + sep
  {
    if |parts| > 1 {
      TerminatedIsJoinPlusSep(sep, parts[1..]);
    }
  }

  lemma {:induction false} TerminatedSnoc(sep: string, parts: seq<string>, last: string)
    ensures Terminated(sep, parts + [last]) == Terminated(sep, parts) + last + sep
  {
    if |parts| == 0 {
      assert parts + [last] == [last];
    } else {
      assert (parts + [last])[1..] == parts[1..] + [last];
      TerminatedSnoc(sep, parts[1..], last);
    }
  }

  /** Rust's `String::pop`: removes the last character, and does nothing on
      an empty string. */
  function Pop(s: string): string
  {
    if |s| == 0 then s else s[..|s| - 1]
  }

  /** `n` successive calls of `pop`. */
  function PopN(s: string, n: nat): (r: string)
    ensures |r| == if |s| < n then 0 else |s| - n
    ensures r == s[..|r|]
  {
    if n == 0 then s else PopN(Pop(s), n - 1)
  }

  lemma PopNSuffix(a: string, b: string)
    ensures PopN(a + b, |b|) == a
  {
    var r := PopN(a + b, |b|);
    assert r == (a + b)[..|a|];
  }

  /** Popping `k` characters off `head` followed by every part terminated
      by `sep` leaves the parts joined by `sep`, followed by what remains of
      the last separator. */
  lemma PopTerminated(head: string, sep: string, parts: seq<string>, k: nat)
    requires |parts| > 0 && k <= |sep|
    ensures PopN(head + Terminated(sep, parts), k) == head + Join(sep, parts) + sep[..|sep| - k]
  {
    var joined := Join(sep, parts);
    TerminatedIsJoinPlusSep(sep, parts);
    assert sep == sep[..|sep| - k] + sep[|sep| - k..];
    assert head + Terminated(sep, parts) == (head + joined + sep[..|sep| - k]) + sep[|sep| - k..];
    PopNSuffix(head + joined + sep[..|sep| - k], sep[|sep| - k..]);
  }

  /** `needle` occurs as a contiguous piece of `hay`. */
  predicate IsSubstring(needle: string, hay: string)
  {
    exists k :: 0 <= k <= |hay| && OccursAt(needle, hay, k)
  }

  predicate OccursAt(needle: string, hay: string, k: int)
  {
    0 <= k <= |hay| - |needle| && hay[k..k + |needle|] == needle
  }

  /** The first `n` characters of `s`, or all of it when shorter
      (`String::truncate`). */
  function Truncate(s: string, n: nat): (r: string)
    ensures |r| == if |s| < n then |s| else n
    ensures r == s[..|r|]
  {
    if |s| <= n then s else s[..n]
  }
}
